=== FILE: README.md ===
# Episode bookkeeping of the Modelica gym environment

This project models `ModelicaEnv` from `gym_microgrid/env/modelica.py`. It is an OpenAI gym environment that wraps a Modelica model exported as an FMU (Functional Mock-up Unit, model exchange). The model covers its bookkeeping and treats the simulator as opaque:

- the constructor's argument checks and the configuration they derive: the end time `time_end`, the lifting of scalar model parameters to constant functions of time, and the writing of the output names into the history;
- the simulation time window `sim_time_interval`, which `reset` places at `[time_start, time_start + time_step]` and each non-terminal `step` moves by `time_step`;
- the termination test `is_done`, which is `|t_end| > time_end` with a strict comparison and no end when there is no step limit;
- `step`: the no-op after termination, the wrapping of a bare number, the length check, the inputs and parameters pushed to the model, one simulation, one history row, then the window move;
- `update_measurements`: the column-schema rule (a group of columns is wholly new, wholly known, or rejected) and the concatenation of the measurement frames;
- `_setup_fmu`: the set-up sequence and its event iteration, driven by an oracle that answers the event-info query.

Modules:

- `Wrappers`: `Option`, `Result` and `Outcome`, and the projections `Firsts` and `Seconds` of a list of pairs.
- `Columns`: column groups, their flattening, and the registration rule of `update_measurements`.
- `Rows`: one-row frames as maps from column name to value, with batched assignment, side-by-side concatenation and join.
- `Params`: parameter lifting, both as intended and as written.
- `Episode`: the pure part. It holds the window arithmetic, `time_end`, `is_done`, action validation and the constructor's checks.
- `Recorder`: the history, as a class.
- `Adapter`: the FMU, as a class whose numerics are functions fixed at load time.
- `Modelica`: the environment class `Env`, with `Reset`, `Step` and `UpdateMeasurements`.

Time is an exact `real`, and `time_end` is an `Option<real>` in which `None` stands for `np.inf`. `Env.Valid()` is the invariant that `Reset`, `Step` and `UpdateMeasurements` keep. After any number of steps since the last reset, the window is `WindowAt(time_start, time_step, shifts)`, and the history holds the reset row plus one row per move. `Episode.EpisodeLength` then proves that, when `time_start >= 0` and `time_step > 0`, with a limit of `m` steps the window is done exactly from the `m`-th move on. With a negative start this fails because of the absolute value. For example, `time_start = -1`, `time_step = 0.1` and `m = 15` give `time_end = 0.5`, and the reset window, which ends at -0.9, is already done. `Modelica.FiveStepEpisode` plays a whole episode of five steps through `Create`, `Reset` and `Step`.

Some behaviours of the code are worth knowing:

- The `else` branch of `step` at `gym_microgrid/env/modelica.py:318` cannot be reached. The window is not changed between the guard at line 277 and the test at line 315, so a step that gets past the guard always moves the window. `Env.Step` states this: every successful step shifts the window. The step whose move makes the episode done returns `done == True`.
- The schema rule compares the number of distinct new names with the length of the flattened group, which counts repeats. A group that repeats a name and holds at least one new name is therefore rejected, even when none of its names is known (`Columns.RepeatedNewNameConflicts`, for every such group).
- `is_done` compares an absolute value, so a negative end time makes every window done (`Episode.NegativeTimeEndIsAlwaysDone`).
- The constructor writes the output names into the history before it checks `selected_viz_series`, so a rejected series type leaves the shared history changed (`Modelica.Env.Create`).

`gym_microgrid/env/recorder.py` and `gym_microgrid/common/itertools_.py` are not part of this model. The history and `flatten` are modelled with the behaviour the environment relies on: `cols`, `structured_cols`, `reset` and `append`; `flatten` yields the names in order.

## Model

| member | source | states |
|---|---|---|
| Episode.MakeConfig | gym_microgrid/env/modelica.py:88-139 | Construction fails on a missing input list, then a missing output list, then an unknown viz mode, then a selected-series value of another type, in that order and with those errors. Otherwise `time_end` is unbounded exactly when there is no step limit, the output names are the flattened output groups, `record_states` holds exactly for `'episode'`, and each lifted parameter evaluates to its intended value. |
| Episode.TimeEnd | gym_microgrid/env/modelica.py:112 | With a step limit `m`, the end time is `time_start + m * time_step`. With none, no window end is ever done. |
| Episode.FiveStepExample | gym_microgrid/env/modelica.py:112 | A start of 0, steps of 0.1 and a limit of 5 give an end time of 0.5. A window ending at 0.5 is not done; one ending at 0.6 is. |
| Episode.Done | gym_microgrid/env/modelica.py:222 | With no end time nothing is done. With a non-negative end time, a window end is done exactly when it lies outside `[-time_end, time_end]`. |
| Modelica.Env.IsDone | gym_microgrid/env/modelica.py:214-222 | The current window is never done without a step limit. With a non-negative end time, it is done exactly when its end lies outside `[-time_end, time_end]`. |
| Episode.EndingAtTimeEndIsNotDone | gym_microgrid/env/modelica.py:222 | The test is strict: a window ending exactly at a non-negative end time is not done, and any later end is. |
| Episode.NegativeTimeEndIsAlwaysDone | gym_microgrid/env/modelica.py:222 | Because the test takes an absolute value, a negative end time makes every window done. |
| Episode.EpisodeLength | gym_microgrid/env/modelica.py:222 | From a non-negative start with a positive step and a limit of `m` steps, the window after `n` moves is done exactly when `n >= m`. |
| Episode.WindowEndAgainstLimit | gym_microgrid/env/modelica.py:315-317 | From a non-negative start with a positive step, the end of the window after `n` moves is positive, and it passes `time_start + m * time_step` exactly when `n >= m`. |
| Episode.Shift | gym_microgrid/env/modelica.py:317 | Moving the window keeps its length. |
| Episode.WindowAt | gym_microgrid/env/modelica.py:261 | Every window reached from the reset window by moves has length `time_step`. |
| Episode.WindowAtClosedForm | gym_microgrid/env/modelica.py:315-317 | After `n` moves, the window is `[time_start + n * time_step, time_start + (n + 1) * time_step]`. |
| Episode.AsValues | gym_microgrid/env/modelica.py:285-289 | A bare number becomes the one-element list holding it. A list is kept as it is. |
| Episode.CheckAction | gym_microgrid/env/modelica.py:291-297 | An action passes exactly when its length equals the number of input names, and then its values are unchanged. Otherwise the error carries the expected and the actual length. |
| Episode.ScalarActsAsSingleton | gym_microgrid/env/modelica.py:285-289 | A bare number is treated exactly as the one-element list holding it, so it passes only for a single input. |
| Episode.TwoValuesForOneInput | gym_microgrid/env/modelica.py:292-297 | Two values for one input are refused with the lengths 1 and 2. |
| Params.Lift | gym_microgrid/env/modelica.py:115-116 | Lifting keeps the names and their order. Each lifted function yields, at every time, what its parameter is worth then. |
| Params.LiftedScalarIsConstant | gym_microgrid/env/modelica.py:114-116 | A lifted scalar is the same constant at every time, namely its own value. |
| Params.LiftAsWritten | gym_microgrid/env/modelica.py:115 | As written, every lifted scalar yields the last entry's parameter. Functions of time keep their values. |
| Params.LateBindingCounterexample | gym_microgrid/env/modelica.py:115 | For parameters `a = 1.0, b = 2.0`, the as-written function of `a` yields `b`'s 2.0, where the intended one yields 1.0. |
| Params.ValuesAt | gym_microgrid/env/modelica.py:304 | Each parameter's function evaluated at the given time, in order, for the second half of the `zip`. |
| Columns.FlattenAppend | gym_microgrid/env/modelica.py:240 | Flattening distributes over the concatenation of column groups. |
| Columns.FlattenMembers | gym_microgrid/env/modelica.py:235-236 | `flatten` yields exactly the names of the groups: a name is in the flat list exactly when it belongs to one of the groups, a bare name or a member of a nested list. |
| Columns.NameSetSize | gym_microgrid/env/modelica.py:235 | The set of names is no larger than the list, and equally large exactly when the list has no repeats. |
| Columns.DifferenceSize | gym_microgrid/env/modelica.py:235-236 | Removing the known names leaves all of a set exactly when none of its names is known, and nothing exactly when all are known. |
| Columns.MissingCount | gym_microgrid/env/modelica.py:235 | The count of distinct new names is at most the number of distinct names of the group, and that is at most the length of the flat list. |
| Columns.MissingCountMeaning | gym_microgrid/env/modelica.py:235 | The missing count is zero exactly when every name of the group is known. It is positive only when some name is new, and below the length of the flat list only when a name repeats or is known. |
| Columns.Classify | gym_microgrid/env/modelica.py:235-239 | For every group, repeats or not: the columns stay as they are exactly when all of its names are known. An appended group is non-empty. A rejected group has a new name, together with a repeated or a known name. |
| Columns.ClassifyMeaning | gym_microgrid/env/modelica.py:234-240 | For a group without repeats there are three cases. All names known: nothing changes. All names new and at least one: the group is appended. Some names known and some new: an error. Each holds in both directions. |
| Columns.NewColumnsAreFresh | gym_microgrid/env/modelica.py:236-240 | A group that is appended has no repeated names, and none of them is already known. |
| Columns.RepeatedNewNameConflicts | gym_microgrid/env/modelica.py:235-236 | Every group that repeats a name and holds a new name is rejected as a partial overlap, whatever the known names. |
| Columns.RegisterStep | gym_microgrid/env/modelica.py:234-240 | A group that passes the rule leaves the old structured columns as a prefix of the new ones. |
| Columns.RegisterAll | gym_microgrid/env/modelica.py:234-240 | The old structured columns are always a prefix of the result: registration only appends. No groups leave the columns as they are, without error. |
| Columns.RegisterAllNext | gym_microgrid/env/modelica.py:234-240 | Registering the rest of the groups after one that passes is the same as registering from that group on. |
| Columns.RegisterAllExtend | gym_microgrid/env/modelica.py:234-240 | When the first groups pass and the next group passes against the columns they leave, the groups up to and including it pass, ending with that group's columns. |
| Columns.RegisterAllPrefix | gym_microgrid/env/modelica.py:234-240 | The same for the first `i` groups of the list and group `i`. |
| Columns.RegisterAllStops | gym_microgrid/env/modelica.py:236-238 | The first rejected group stops the registration, failing, with the columns registered before it. |
| Columns.RegisterAllGrows | gym_microgrid/env/modelica.py:240 | The flat column names only grow: the old names are a prefix of the result. |
| Columns.RegisterAllKeepsDistinct | gym_microgrid/env/modelica.py:234-240 | Registration never introduces a duplicate column name. |
| Rows.Assign | gym_microgrid/env/modelica.py:301-304 | Setting named values, one after another, adds exactly those names as keys. |
| Rows.AssignLookup | gym_microgrid/env/modelica.py:301-304 | A name takes the value of its last assignment, so parameters set after the action override inputs of the same name. |
| Rows.AssignUntouched | gym_microgrid/env/modelica.py:304 | A variable that is not set keeps its value. |
| Rows.Concat | gym_microgrid/env/modelica.py:242 | No frames give no columns. Otherwise every column of the last frame is present with that frame's value. |
| Rows.ConcatKeys | gym_microgrid/env/modelica.py:242 | The concatenated measurements have exactly the columns of the given frames. |
| Rows.ConcatLookup | gym_microgrid/env/modelica.py:242 | A column of the concatenation has the value of the last frame that has it. |
| Rows.JoinEmpty | gym_microgrid/env/modelica.py:264-265 | Joining the state with the empty measurements of a reset gives the state itself. |
| Rows.RowOf | gym_microgrid/env/modelica.py:212 | The frame built from the output names and their values has exactly those names as columns. `Rows.AssignLookup` gives each column's value. |
| Rows.Join | gym_microgrid/env/modelica.py:308 | A join succeeds exactly when the two rows share no column. The result then has both rows' columns with their values. |
| Recorder.History.SetCols | gym_microgrid/env/modelica.py:235-240 | Assigning the columns replaces the column groups. `Cols` reads the flat names compared at line 235, and `StructuredCols` reads the groups extended at line 240. |
| Recorder.History.Reset | gym_microgrid/env/modelica.py:262 | Resetting the history drops every row. |
| Recorder.History.Append | gym_microgrid/env/modelica.py:309 | Appending adds exactly one row at the end. |
| Adapter.Fmu.Reset | gym_microgrid/env/modelica.py:257 | The model returns to its initial state, with no inputs set and no event updates. |
| Adapter.Fmu.SetupExperiment | gym_microgrid/env/modelica.py:152 | The experiment's start time is recorded. |
| Adapter.Fmu.EnterInitializationMode | gym_microgrid/env/modelica.py:153 | The model enters initialisation mode. |
| Adapter.Fmu.ExitInitializationMode | gym_microgrid/env/modelica.py:154 | Leaving initialisation puts the model in event mode. |
| Adapter.Fmu.EnterEventMode | gym_microgrid/env/modelica.py:160 | The model enters event mode. |
| Adapter.Fmu.EventUpdate | gym_microgrid/env/modelica.py:161 | Each event update is counted. |
| Adapter.Fmu.GetEventInfo | gym_microgrid/env/modelica.py:156 | The event info answers the oracle's value for the current update count. |
| Adapter.Fmu.EnterContinuousTimeMode | gym_microgrid/env/modelica.py:164 | The model enters continuous-time mode. |
| Adapter.Fmu.Set | gym_microgrid/env/modelica.py:301 | Setting values assigns them to the named variables, in order. |
| Adapter.Fmu.Advance | gym_microgrid/env/modelica.py:206-209 | The continuous state becomes the solver's final state over the window, under the current inputs. |
| Adapter.Fmu.Outputs | gym_microgrid/env/modelica.py:211 | There is one value per requested name: that variable's value in the current state. |
| Adapter.Fmu.GetReal | gym_microgrid/env/modelica.py:211 | There is one value per requested name: that variable's value in the current state, under the current inputs. |
| Wrappers.Firsts | gym_microgrid/env/modelica.py:234 | The first components of a list of pairs, in order: the `cols` of each (columns, frame) pair at line 234, and the parameter names that line 304's `zip` passes to `set`. |
| Wrappers.Seconds | gym_microgrid/env/modelica.py:242 | The second components of a list of pairs, in order: the frames put side by side at line 242. |
| Modelica.Env.Create | gym_microgrid/env/modelica.py:86-139 | Construction succeeds exactly when the configuration does, and then has no window yet. The history's columns become the output groups once the early checks pass, even when the series check then fails. |
| Modelica.Env.SetupFmu | gym_microgrid/env/modelica.py:146-164 | After set-up, the start time is `time_start` and the model is in continuous-time mode. Event iteration stopped at the first update, at least one, after which nothing is pending. |
| Modelica.Env.ResetModel | gym_microgrid/env/modelica.py:257-260 | The model is back at its initial state with no inputs set. The start time is `time_start` and the mode is continuous-time after the set-up sequence. |
| Modelica.Env.Observation | gym_microgrid/env/modelica.py:211-212 | The observation has exactly the output names as columns. |
| Modelica.Env.Simulate | gym_microgrid/env/modelica.py:193-212 | The state is integrated over the current window, and the observation has exactly the output names as columns. |
| Modelica.Env.Reset | gym_microgrid/env/modelica.py:244-267 | The window is `[time_start, time_start + time_step]`, no inputs are set and the model is in continuous-time mode. The measurements are empty. The history holds exactly one row: the initial observation, which is also the state returned. |
| Modelica.Env.PushInputs | gym_microgrid/env/modelica.py:299-304 | The action is set on the input names, then every parameter evaluated at the window start. |
| Modelica.Env.Step | gym_microgrid/env/modelica.py:269-321 | After termination it returns the last state and changes nothing. A wrong action length raises before anything changes. Otherwise the inputs and parameters are pushed and one simulation gives the state. The observation joined with the measurements is appended as exactly one row, the window moves by `time_step`, and the reward and the new done flag are returned. |
| Modelica.Env.Proceed | gym_microgrid/env/modelica.py:299-321 | After the checks, the action and then the parameters at the window start are set, and one simulation gives the state. A shared column between state and measurements raises with nothing appended. Otherwise exactly one row is appended, the window moves by `time_step`, and the reward and the done flag of the moved window are returned. |
| Modelica.Env.RecordObservation | gym_microgrid/env/modelica.py:307-321 | A shared column between the observation and the measurements raises with nothing appended and the window unmoved. Otherwise the joined row is appended as exactly one row, the window moves by `time_step`, and the reward of that row and the done flag of the moved window are returned. |
| Modelica.Env.RegisterGroups | gym_microgrid/env/modelica.py:234-240 | The loop registers the groups as `RegisterAll` does. It returns the index of the first rejected group, if there is one: that group conflicts with the columns at that point, and the groups before it pass and leave exactly those columns. |
| Modelica.Env.RegisterGroup | gym_microgrid/env/modelica.py:235-240 | One iteration: it reports a conflict exactly when the schema rule rejects the group, leaving the columns alone. Otherwise the columns become those the rule gives. |
| Modelica.Env.UpdateMeasurements | gym_microgrid/env/modelica.py:224-242 | The columns become the result of registering every group. A rejected group raises a schema conflict and leaves the measurements as they were. The error names the column groups of one given pair and the flat column names at the raise. Those groups conflict with those names, and every pair before it passed. An empty list raises at the concatenation. Otherwise the measurements are the frames side by side. |
| Modelica.FiveStepEpisode | gym_microgrid/env/modelica.py:269-321 | With a start of 0, steps of 0.1 and a limit of 5, no inputs and no parameters, the five steps after a reset report done as false four times and then true. The window has then moved five times, the history holds six rows, and a sixth step returns the state the environment holds. |
| Modelica.StepWithoutInputs | gym_microgrid/env/modelica.py:269-321 | For a reset environment without inputs and with empty measurements, from any non-negative start with a positive step and a limit of 5: a step before the fifth move succeeds, moves the window once, and reports done exactly when that move was the fifth. |
| Modelica.StepAfterEnd | gym_microgrid/env/modelica.py:277-278 | Once the window has moved five times under a limit of 5, the episode is done. A step returns the last state and changes neither the environment, the model nor the history. |

## Left out

- Loading the FMU with pyfmi, its log file name, and `model_path`, `solver_method` and `log_level`: these are foreign calls and settings. `Adapter.Fmu` stands for a loaded model.
- `_calc_jac`, `_get_deriv` and the `solve_ivp` call: floating-point numerics. Integration is the opaque function `Fmu.integrate`, and solver failures are not modelled.
- `Fmu.read` has no time argument, so outputs are taken to depend only on the state and the inputs. In the code, `_get_deriv` leaves the model's time at the solver's last evaluation, and `get_real` reads the outputs at that time.
- The precomputed `model_output_idx`: outputs are read by name (`Fmu.Outputs`), which selects the same variables.
- `render` and `close` are not modelled, and neither are the regular-expression and glob matching of `selected_viz_series`. Only its type check is kept, as the `VizSeries` cases.
- Logging and the gym `action_space` / `observation_space`.
- The reward: it is an arbitrary callable, kept as an opaque function of the row.
- The single-DataFrame form of `update_measurements`: it fails on the misspelt attribute `measurements.colums`, so only the list-of-pairs form is modelled.
- pandas frames are one-row maps from column name to value. Index alignment, multi-row frames and duplicate column labels are not modelled. `Rows.Concat` lets a later frame's column override an earlier one, where pandas would keep both.
- Floating point: time is exact `real` arithmetic, so rounding is not captured. The code moves the window end with `+=` (line 317) and compares it with `time_start + m * time_step` (line 112), and in doubles the two can disagree. For example, with `time_step = 0.01` and 100 steps the end after 99 moves rounds to 1.0000000000000007, which is past 1.0, so in doubles the episode would report done one move early. `Episode.EpisodeLength` ("done exactly from the `m`-th move on") is a statement about exact arithmetic.
- The default `FullHistory()` object shared by every environment built without a history: the history is always passed in.
- `Modelica.Env.Step`: requires a prior `Reset`, as the constructor's documentation demands. Stepping before a reset fails in the code on the missing window and is not modelled.
- `Modelica.Env.SetupFmu`: requires that the oracle eventually reports no pending discrete state. A model that never settles would loop forever, and that case is not modelled.
- Column groups nest one level: a bare name or a list of names. Two forms of output names cannot be written in `Columns.ColumnGroup`: deeper list nesting, which `flatten` would also flatten, and the nested dict form that a comment in the constructor mentions (line 125).
- The set-up calls (initialisation, event updates) do not change the continuous state. `Fmu.initialStates` stands for the state once set-up is done, so set-up is assumed deterministic.
- `model_params=None` is modelled as an empty parameter list. Both skip the parameter assignment in `step`.

## Findings

| source | as written | input that shows it | evidently intended | confidence | as-written member | corrected member |
|---|---|---|---|---|---|---|
| gym_microgrid/env/modelica.py:115 | `lambda t: val` reads the comprehension variable when it is called, after the comprehension has finished, so every lifted scalar returns the last entry's value | `model_params={'a': 1.0, 'b': 2.0}`: the function for `a` returns 2.0 | each scalar becomes the constant function of its own value | high; not executed | Params.LateBindingCounterexample | Params.Lift |

=== FILE: adapter.dfy ===
/**
 * The simulation model the environment drives (an FMU in model-exchange
 * mode). Its numerics are opaque: the integration of the continuous state
 * over a window, the reading of an output variable, and the answer of the
 * event-info query after a given number of event updates are functions fixed
 * when the model is loaded. What the model tracks is the state those
 * functions act on and the calls made to it.
 */
module Adapter {
  import opened Rows

  /** The FMI mode the model is in. */
  datatype Mode = Instantiated | Initialization | EventMode | ContinuousTime

  class Fmu {
    /**
     * The continuous state once a reset and the whole set-up sequence
     * (initialisation and event iteration) are done. Set-up is taken to be
     * deterministic, so the set-up calls below leave `states` as they find it.
     */
    const initialStates: seq<real>
    /** The adaptive solver run over [t0, t1] from a state, under the given inputs. */
    const integrate: (seq<real>, Row, real, real) -> seq<real>
    /** The value of an output variable in a state, under the given inputs. */
    const read: (seq<real>, Row, string) -> real
    /** Whether the event info reports that new discrete states are needed after k event updates since the last reset. */
    const newDiscreteStatesNeeded: nat -> bool

    var states: seq<real>
    /** The inputs and parameters set since the last reset; unset ones keep their start values. */
    var inputs: Row
    var startTime: real
    var mode: Mode
    var eventUpdates: nat

    /** Event iteration terminates: some update count leaves no discrete state pending. */
    ghost predicate Settles()
    {
      exists k: nat :: 1 <= k && !newDiscreteStatesNeeded(k)
    }

    /** eventUpdates is the first update count, at least one, after which nothing is pending. */
    predicate SettledAfter(k: nat)
    {
      1 <= k && !newDiscreteStatesNeeded(k) && forall j :: 1 <= j < k ==> newDiscreteStatesNeeded(j)
    }

    constructor (initialStates: seq<real>, integrate: (seq<real>, Row, real, real) -> seq<real>,
                 read: (seq<real>, Row, string) -> real, newDiscreteStatesNeeded: nat -> bool)
      requires exists k: nat :: 1 <= k && !newDiscreteStatesNeeded(k)
      ensures Settles()
      ensures this.initialStates == initialStates && this.integrate == integrate
      ensures this.read == read && this.newDiscreteStatesNeeded == newDiscreteStatesNeeded
      ensures states == initialStates && inputs == map[] && mode == Instantiated && eventUpdates == 0
    {
      this.initialStates := initialStates;
      this.integrate := integrate;
      this.read := read;
      this.newDiscreteStatesNeeded := newDiscreteStatesNeeded;
      states := initialStates;
      inputs := map[];
      startTime := 0.0;
      mode := Instantiated;
      eventUpdates := 0;
    }

    /** Back to the state after instantiation. */
    method Reset()
      modifies this`states, this`inputs, this`mode, this`eventUpdates
      ensures states == initialStates && inputs == map[] && mode == Instantiated && eventUpdates == 0
    {
      states := initialStates;
      inputs := map[];
      mode := Instantiated;
      eventUpdates := 0;
    }

    method SetupExperiment(startTime: real)
      modifies this`startTime
      ensures this.startTime == startTime
    {
      this.startTime := startTime;
    }

    method EnterInitializationMode()
      modifies this`mode
      ensures mode == Initialization
    {
      mode := Initialization;
    }

    /** Leaving initialisation puts a model-exchange FMU into event mode. */
    method ExitInitializationMode()
      modifies this`mode
      ensures mode == EventMode
    {
      mode := EventMode;
    }

    method EnterEventMode()
      modifies this`mode
      ensures mode == EventMode
    {
      mode := EventMode;
    }

    /** One discrete update; the continuous state is left to the opaque functions. */
    method EventUpdate()
      modifies this`eventUpdates
      ensures eventUpdates == old(eventUpdates) + 1
    {
      eventUpdates := eventUpdates + 1;
    }

    /** The newDiscreteStatesNeeded flag of the event info. */
    method GetEventInfo() returns (needed: bool)
      ensures needed == newDiscreteStatesNeeded(eventUpdates)
    {
      needed := newDiscreteStatesNeeded(eventUpdates);
    }

    method EnterContinuousTimeMode()
      modifies this`mode
      ensures mode == ContinuousTime
    {
      mode := ContinuousTime;
    }

    /** Batched assignment of named inputs or parameters, in order. */
    method Set(names: seq<string>, values: seq<real>)
      requires |names| == |values|
      modifies this`inputs
      ensures inputs == Assign(old(inputs), names, values)
    {
      inputs := Assign(inputs, names, values);
    }

    /** The solver run over [t0, t1] from the current state; its final state is written back. */
    method Advance(t0: real, t1: real)
      modifies this`states
      ensures states == integrate(old(states), inputs, t0, t1)
    {
      states := integrate(states, inputs, t0, t1);
    }

    /** The values of the named outputs in the current state. */
    function Outputs(names: seq<string>): (values: seq<real>)
      reads this
      ensures |values| == |names|
      ensures forall i :: 0 <= i < |names| ==> values[i] == read(states, inputs, names[i])
    {
      var x, u := states, inputs;
      seq(|names|, i requires 0 <= i < |names| => read(x, u, names[i]))
    }

    /** Batched read of output values (get_real). */
    method GetReal(names: seq<string>) returns (values: seq<real>)
      ensures |values| == |names|
      ensures forall i :: 0 <= i < |names| ==> values[i] == read(states, inputs, names[i])
    {
      values := Outputs(names);
    }
  }
}

=== FILE: columns.dfy ===
/**
 * The column schema of the history: an ordered list of column groups, each a
 * single name or a list of names, and the rule by which update_measurements
 * lets a group of measurement columns into that schema.
 */
module Columns {
  import opened Wrappers

  /** One element of a structured column list: a bare name or a nested list of names. */
  datatype ColumnGroup = Name(name: string) | Names(names: seq<string>)

  function Members(g: ColumnGroup): seq<string>
  {
    match g
    case Name(n) => [n]
    case Names(ns) => ns
  }

  /** The flat list of column names of a structured column list, in order. */
  function Flatten(cols: seq<ColumnGroup>): seq<string>
  {
    if cols == [] then [] else Members(cols[0]) + Flatten(cols[1..])
  }

  /** A name is in the flat list exactly when it is a member of one of the groups. */
  lemma {:induction false} FlattenMembers(cols: seq<ColumnGroup>, n: string)
    ensures n in Flatten(cols) <==> exists i :: 0 <= i < |cols| && n in Members(cols[i])
  {
    if cols != [] {
      FlattenMembers(cols[1..], n);
      if n in Flatten(cols[1..]) {
        var i :| 0 <= i < |cols[1..]| && n in Members(cols[1..][i]);
        assert n in Members(cols[i + 1]);
      }
      if exists i :: 0 <= i < |cols| && n in Members(cols[i]) {
        var i :| 0 <= i < |cols| && n in Members(cols[i]);
        if i > 0 {
          assert cols[1..][i - 1] == cols[i];
        }
      }
    }
  }

  function NameSet(s: seq<string>): set<string>
  {
    set n | n in s
  }

  predicate Distinct(s: seq<string>)
  {
    forall i, j :: 0 <= i < j < |s| ==> s[i] != s[j]
  }

  /** Flattening distributes over concatenation of structured column lists. */
  lemma {:induction false} FlattenAppend(a: seq<ColumnGroup>, b: seq<ColumnGroup>)
    ensures Flatten(a + b) == Flatten(a) + Flatten(b)
  {
    if a == [] {
      assert a + b == b;
    } else {
      assert (a + b)[0] == a[0];
      assert (a + b)[1..] == a[1..] + b;
      FlattenAppend(a[1..], b);
    }
  }

  /** A list has at most as many distinct names as entries, and exactly as many iff no name repeats. */
  lemma {:induction false} NameSetSize(s: seq<string>)
    ensures |NameSet(s)| <= |s|
    ensures |NameSet(s)| == |s| <==> Distinct(s)
  {
    if s != [] {
      NameSetSize(s[1..]);
      assert NameSet(s) == {s[0]} + NameSet(s[1..]);
      if s[0] in s[1..] {
        assert NameSet(s) == NameSet(s[1..]);
        var j :| 0 <= j < |s[1..]| && s[1..][j] == s[0];
        assert s[0] == s[j + 1];
      } else {
        assert Distinct(s) <==> Distinct(s[1..]) by {
          if Distinct(s[1..]) {
            forall i, j | 0 <= i < j < |s| ensures s[i] != s[j] {
              if i > 0 { assert s[i] == s[1..][i - 1] && s[j] == s[1..][j - 1]; }
              else { assert s[j] in s[1..]; }
            }
          }
          if Distinct(s) {
            forall i, j | 0 <= i < j < |s[1..]| ensures s[1..][i] != s[1..][j] {
              assert s[1..][i] == s[i + 1] && s[1..][j] == s[j + 1];
            }
          }
        }
      }
    }
  }

  /** Removing a set from a finite set leaves all of it exactly when the two are disjoint. */
  lemma DifferenceSize(a: set<string>, k: set<string>)
    ensures |a - k| <= |a|
    ensures |a - k| == |a| <==> a * k == {}
    ensures |a - k| == 0 <==> a <= k
  {
    assert a == (a - k) + (a * k);
    assert (a - k) * (a * k) == {};
  }

  /** How a group of measurement columns relates to the columns already recorded. */
  datatype Verdict = Conflict | AlreadyKnown | NewColumns

  /** The number of distinct names of `cols` that `known` lacks. */
  function MissingCount(known: seq<string>, cols: seq<ColumnGroup>): (r: nat)
    ensures r <= |NameSet(Flatten(cols))| <= |Flatten(cols)|
  {
    NameSetSize(Flatten(cols));
    DifferenceSize(NameSet(Flatten(cols)), NameSet(known));
    |NameSet(Flatten(cols)) - NameSet(known)|
  }

  /**
   * The test of update_measurements: the count of distinct missing names is
   * compared with the length of the flat name list (repeats included).
   */
  function Classify(known: seq<string>, cols: seq<ColumnGroup>): (r: Verdict)
    ensures r == AlreadyKnown <==> (forall n :: n in Flatten(cols) ==> n in known)
    ensures r == NewColumns ==> Flatten(cols) != []
    ensures r == Conflict ==> exists n :: n in Flatten(cols) && n !in known
    ensures r == Conflict ==> !Distinct(Flatten(cols)) || exists n :: n in Flatten(cols) && n in known
  {
    MissingCountMeaning(known, cols);
    var miss := MissingCount(known, cols);
    if 0 < miss < |Flatten(cols)| then Conflict
    else if miss != 0 then NewColumns
    else AlreadyKnown
  }

  /**
   * The missing count is zero exactly when every name is known, positive only
   * when some name is new, and below the length of the flat list only when a
   * name repeats or is known.
   */
  lemma MissingCountMeaning(known: seq<string>, cols: seq<ColumnGroup>)
    ensures MissingCount(known, cols) == 0 <==> (forall n :: n in Flatten(cols) ==> n in known)
    ensures MissingCount(known, cols) > 0 ==> exists n :: n in Flatten(cols) && n !in known
    ensures MissingCount(known, cols) < |Flatten(cols)| ==>
      !Distinct(Flatten(cols)) || exists n :: n in Flatten(cols) && n in known
  {
    var names := Flatten(cols);
    NameSetSize(names);
    DifferenceSize(NameSet(names), NameSet(known));
    if MissingCount(known, cols) > 0 {
      var n :| n in NameSet(names) - NameSet(known);
      assert n in names && n !in known;
    }
    if MissingCount(known, cols) < |names| && Distinct(names) {
      var n :| n in NameSet(names) * NameSet(known);
      assert n in names && n in known;
    }
    if MissingCount(known, cols) == 0 {
      forall n | n in names ensures n in known {
        assert n in NameSet(names);
      }
    } else {
      assert !forall n :: n in names ==> n in known;
    }
  }

  /**
   * For a group whose names do not repeat: it is already known iff every name
   * is known, new iff it is non-empty and no name is known, and a conflict iff
   * some names are known and some are not.
   */
  lemma ClassifyMeaning(known: seq<string>, cols: seq<ColumnGroup>)
    requires Distinct(Flatten(cols))
    ensures Classify(known, cols) == AlreadyKnown <==> (forall n :: n in Flatten(cols) ==> n in known)
    ensures Classify(known, cols) == NewColumns <==> Flatten(cols) != [] && (forall n :: n in Flatten(cols) ==> n !in known)
    ensures Classify(known, cols) == Conflict <==>
      (exists n :: n in Flatten(cols) && n in known) && (exists n :: n in Flatten(cols) && n !in known)
  {
    var names := Flatten(cols);
    NameSetSize(names);
    DifferenceSize(NameSet(names), NameSet(known));
    if (exists n :: n in names && n in known) {
      var n :| n in names && n in known;
      assert n in NameSet(names) * NameSet(known);
    }
    if (exists n :: n in names && n !in known) {
      var n :| n in names && n !in known;
      assert n in NameSet(names) - NameSet(known);
    }
  }

  /**
   * Whatever the group, a group admitted as new has no repeated name and no
   * name already known: registration never records a name twice.
   */
  lemma NewColumnsAreFresh(known: seq<string>, cols: seq<ColumnGroup>)
    requires Classify(known, cols) == NewColumns
    ensures Distinct(Flatten(cols))
    ensures forall n :: n in Flatten(cols) ==> n !in known
  {
    var names := Flatten(cols);
    NameSetSize(names);
    DifferenceSize(NameSet(names), NameSet(known));
    forall n | n in names ensures n !in known {
      assert n in NameSet(names) && n !in NameSet(names) * NameSet(known);
    }
  }

  /**
   * As written, a group that repeats a name and holds a new name is refused as
   * a partial overlap, even when none of its names is known: the count of
   * distinct missing names stays below the length of the list.
   */
  lemma RepeatedNewNameConflicts(known: seq<string>, cols: seq<ColumnGroup>)
    requires !Distinct(Flatten(cols))
    requires exists n :: n in Flatten(cols) && n !in known
    ensures Classify(known, cols) == Conflict
  {
    var names := Flatten(cols);
    NameSetSize(names);
    DifferenceSize(NameSet(names), NameSet(known));
    var n :| n in names && n !in known;
    assert n in NameSet(names) - NameSet(known);
  }

  /** One group of update_measurements: None when it raises, else the structured columns afterwards. */
  function RegisterStep(structured: seq<ColumnGroup>, cols: seq<ColumnGroup>): (r: Option<seq<ColumnGroup>>)
    ensures r.Some? ==> structured <= r.value
  {
    match Classify(Flatten(structured), cols)
    case Conflict => None
    case AlreadyKnown => Some(structured)
    case NewColumns => Some(structured + cols)
  }

  /** The columns after the loop of update_measurements, and whether it finished without raising. */
  datatype Registration = Registration(structured: seq<ColumnGroup>, ok: bool)

  /** The loop of update_measurements over the groups, stopping at the first conflict. */
  function RegisterAll(structured: seq<ColumnGroup>, groups: seq<seq<ColumnGroup>>): (r: Registration)
    ensures structured <= r.structured
    ensures groups == [] ==> r == Registration(structured, true)
    decreases |groups|
  {
    if groups == [] then Registration(structured, true)
    else match RegisterStep(structured, groups[0])
      case None => Registration(structured, false)
      case Some(next) => RegisterAll(next, groups[1..])
  }

  /** Resuming the loop of update_measurements after a group that passed. */
  lemma RegisterAllNext(structured: seq<ColumnGroup>, next: seq<ColumnGroup>, groups: seq<seq<ColumnGroup>>, i: nat)
    requires i < |groups| && RegisterStep(structured, groups[i]) == Some(next)
    ensures RegisterAll(next, groups[i + 1..]) == RegisterAll(structured, groups[i..])
  {
    assert groups[i..][0] == groups[i] && groups[i..][1..] == groups[i + 1..];
  }

  /** After a run without a conflict, one more group that passes extends the run. */
  lemma {:induction false} RegisterAllExtend(structured: seq<ColumnGroup>, groups: seq<seq<ColumnGroup>>,
                                             before: seq<ColumnGroup>, cols: seq<ColumnGroup>, next: seq<ColumnGroup>)
    requires RegisterAll(structured, groups) == Registration(before, true)
    requires RegisterStep(before, cols) == Some(next)
    ensures RegisterAll(structured, groups + [cols]) == Registration(next, true)
    decreases |groups|
  {
    if groups == [] {
      assert groups + [cols] == [cols] && [cols][1..] == [];
    } else {
      assert (groups + [cols])[0] == groups[0] && (groups + [cols])[1..] == groups[1..] + [cols];
      var mid :| RegisterStep(structured, groups[0]) == Some(mid);
      RegisterAllExtend(mid, groups[1..], before, cols, next);
    }
  }

  /** The groups before index i passed; if group i passes too, so do the groups up to and including it. */
  lemma RegisterAllPrefix(start: seq<ColumnGroup>, structured: seq<ColumnGroup>, next: seq<ColumnGroup>,
                          groups: seq<seq<ColumnGroup>>, i: nat)
    requires i < |groups| && RegisterStep(structured, groups[i]) == Some(next)
    requires RegisterAll(start, groups[..i]) == Registration(structured, true)
    ensures RegisterAll(start, groups[..i + 1]) == Registration(next, true)
  {
    TakeOneMore(groups, i);
    RegisterAllExtend(start, groups[..i], structured, groups[i], next);
  }

  lemma TakeOneMore<T>(s: seq<T>, i: nat)
    requires i < |s|
    ensures s[..i + 1] == s[..i] + [s[i]]
  {
  }

  /** The loop of update_measurements stops at a group that conflicts. */
  lemma RegisterAllStops(structured: seq<ColumnGroup>, groups: seq<seq<ColumnGroup>>, i: nat)
    requires i < |groups| && RegisterStep(structured, groups[i]).None?
    ensures RegisterAll(structured, groups[i..]) == Registration(structured, false)
  {
    assert groups[i..][0] == groups[i];
  }

  /** Column names only grow: the old flat list of names is a prefix of the new one. */
  lemma RegisterAllGrows(structured: seq<ColumnGroup>, groups: seq<seq<ColumnGroup>>)
    ensures Flatten(structured) <= Flatten(RegisterAll(structured, groups).structured)
  {
    FlattenGrows(structured, RegisterAll(structured, groups).structured);
  }

  /** Extending a structured column list extends its flat list of names. */
  lemma FlattenGrows(a: seq<ColumnGroup>, b: seq<ColumnGroup>)
    requires a <= b
    ensures Flatten(a) <= Flatten(b)
  {
    FlattenAppend(a, b[|a|..]);
    assert a + b[|a|..] == b;
  }

  /** Registration keeps the recorded column names free of repeats. */
  lemma {:induction false} RegisterAllKeepsDistinct(structured: seq<ColumnGroup>, groups: seq<seq<ColumnGroup>>)
    requires Distinct(Flatten(structured))
    ensures Distinct(Flatten(RegisterAll(structured, groups).structured))
    decreases |groups|
  {
    if groups != [] {
      match RegisterStep(structured, groups[0])
      case None =>
      case Some(next) =>
        if Classify(Flatten(structured), groups[0]) == NewColumns {
          NewColumnsAreFresh(Flatten(structured), groups[0]);
          FlattenAppend(structured, groups[0]);
          DistinctAppend(Flatten(structured), Flatten(groups[0]));
        }
        RegisterAllKeepsDistinct(next, groups[1..]);
    }
  }

  lemma DistinctAppend(a: seq<string>, b: seq<string>)
    requires Distinct(a) && Distinct(b)
    requires forall n :: n in b ==> n !in a
    ensures Distinct(a + b)
  {
    forall i, j | 0 <= i < j < |a + b| ensures (a + b)[i] != (a + b)[j] {
      if j >= |a| && i < |a| {
        assert (a + b)[j] == b[j - |a|];
        assert b[j - |a|] in b;
      } else if i >= |a| {
        assert (a + b)[i] == b[i - |a|] && (a + b)[j] == b[j - |a|];
      }
    }
  }
}

=== FILE: episode.dfy ===
/**
 * The pure part of the environment: its configuration and the checks made
 * when it is built, the simulation time window and the termination test, and
 * the coercion and validation of actions.
 */
module Episode {
  import opened Wrappers
  import opened Columns
  import opened Rows
  import opened Params

  /** The interval [start, end] the next simulation integrates over. */
  datatype Window = Window(start: real, end: real)

  /** Both ends of the window move by one time step. */
  function Shift(w: Window, timeStep: real): (r: Window)
    ensures r.end - r.start == w.end - w.start
  {
    Window(w.start + timeStep, w.end + timeStep)
  }

  /** The window after a reset followed by n shifts. */
  function WindowAt(timeStart: real, timeStep: real, n: nat): (w: Window)
    ensures w.end - w.start == timeStep
  {
    if n == 0 then Window(timeStart, timeStart + timeStep) else Shift(WindowAt(timeStart, timeStep, n - 1), timeStep)
  }

  /** After n shifts the window is [time_start + n * time_step, time_start + (n + 1) * time_step]. */
  lemma {:induction false} WindowAtClosedForm(timeStart: real, timeStep: real, n: nat)
    ensures WindowAt(timeStart, timeStep, n).start == timeStart + n as real * timeStep
    ensures WindowAt(timeStart, timeStep, n).end == timeStart + (n + 1) as real * timeStep
  {
    if n > 0 {
      WindowAtClosedForm(timeStart, timeStep, n - 1);
      assert n as real * timeStep == (n - 1) as real * timeStep + timeStep;
      assert (n + 1) as real * timeStep == n as real * timeStep + timeStep;
    }
  }

  function Abs(x: real): (r: real)
    ensures r >= 0.0 && (r == x || r == -x)
  {
    if x < 0.0 then -x else x
  }

  /** The episode is over once the end of the window exceeds the end time in absolute value; None is an unbounded end. */
  predicate Done(tEnd: real, timeEnd: Option<real>)
    ensures timeEnd.None? ==> !Done(tEnd, timeEnd)
    ensures timeEnd.Some? && timeEnd.value >= 0.0 ==>
              (Done(tEnd, timeEnd) <==> tEnd > timeEnd.value || tEnd < -timeEnd.value)
  {
    timeEnd.Some? && Abs(tEnd) > timeEnd.value
  }

  /** The end time of an episode: unbounded without a step limit. */
  function TimeEnd(timeStart: real, timeStep: real, maxSteps: Option<int>): (r: Option<real>)
    ensures maxSteps.None? ==> forall t :: !Done(t, r)
    ensures maxSteps.Some? ==> r == Some(timeStart + maxSteps.value as real * timeStep)
  {
    if maxSteps.None? then None else Some(timeStart + maxSteps.value as real * timeStep)
  }

  /** The comparison is strict: a window ending exactly at a non-negative end time is not done. */
  lemma EndingAtTimeEndIsNotDone(timeEnd: real, t: real)
    requires timeEnd >= 0.0
    ensures !Done(timeEnd, Some(timeEnd))
    ensures t > timeEnd ==> Done(t, Some(timeEnd))
  {
  }

  /**
   * With a limit of m steps from a non-negative start, the window reached
   * after n shifts is done exactly when n >= m: the first m steps simulate,
   * the m-th reports done, and every later step is a no-op.
   */
  lemma EpisodeLength(timeStart: real, timeStep: real, m: int, n: nat)
    requires timeStart >= 0.0 && timeStep > 0.0
    ensures Done(WindowAt(timeStart, timeStep, n).end, TimeEnd(timeStart, timeStep, Some(m))) <==> n >= m
  {
    WindowEndAgainstLimit(timeStart, timeStep, m, n);
  }

  /** The end of the window after n shifts is positive, and passes the end time of m steps exactly when n >= m. */
  lemma WindowEndAgainstLimit(timeStart: real, timeStep: real, m: int, n: nat)
    requires timeStart >= 0.0 && timeStep > 0.0
    ensures WindowAt(timeStart, timeStep, n).end > 0.0
    ensures WindowAt(timeStart, timeStep, n).end > timeStart + m as real * timeStep <==> n >= m
  {
    var k := (n + 1) as real;
    WindowAtClosedForm(timeStart, timeStep, n);
    LaterEndIsLater(timeStart, timeStep, k, m as real, WindowAt(timeStart, timeStep, n).end);
    CountOrder(n, m);
  }

  /** The window after n shifts ends n + 1 steps on, which is past m steps exactly when n >= m. */
  lemma CountOrder(n: nat, m: int)
    ensures (n + 1) as real > m as real <==> n >= m
  {
  }

  /** From a non-negative start, an end k steps on is positive, and passes the end m steps on exactly when k > m. */
  lemma LaterEndIsLater(timeStart: real, timeStep: real, k: real, m: real, end: real)
    requires timeStart >= 0.0 && timeStep > 0.0 && k > 0.0
    requires end == timeStart + k * timeStep
    ensures end > 0.0
    ensures end > timeStart + m * timeStep <==> k > m
  {
    ScaleStrictlyMonotone(k, 0.0, timeStep);
    ScaleStrictlyMonotone(k, m, timeStep);
  }

  /** Multiplying by a positive factor keeps a strict order in both directions. */
  lemma ScaleStrictlyMonotone(a: real, b: real, c: real)
    requires c > 0.0
    ensures a > b <==> a * c > b * c
  {
    assert a * c - b * c == (a - b) * c;
    if a > b {
      assert (a - b) * c > 0.0;
    } else {
      assert (b - a) * c >= 0.0;
    }
  }

  /** A negative end time makes every window done, because the test compares an absolute value. */
  lemma NegativeTimeEndIsAlwaysDone(t: real, timeEnd: real)
    requires timeEnd < 0.0
    ensures Done(t, Some(timeEnd))
  {
  }

  /** Starting at 0 with steps of 0.1 and at most 5 steps: a window ending at 0.5 is not done, one ending at 0.6 is. */
  lemma FiveStepExample()
    ensures TimeEnd(0.0, 0.1, Some(5)) == Some(0.5)
    ensures !Done(0.5, Some(0.5)) && Done(0.6, Some(0.5))
  {
  }

  /** An action: a bare number, or a sequence of values, one per model input. */
  datatype Action = Scalar(x: real) | Values(xs: seq<real>)

  /** A bare number is wrapped into a one-element list. */
  function AsValues(a: Action): (r: seq<real>)
    ensures a.Scalar? ==> |r| == 1 && r[0] == a.x
    ensures a.Values? ==> r == a.xs
  {
    match a
    case Scalar(x) => [x]
    case Values(xs) => xs
  }

  /** The errors the environment raises once built. */
  datatype EnvError =
    | InvalidActionLength(expected: nat, actual: nat)
    | SchemaConflict(cols: seq<ColumnGroup>, known: seq<string>)
    | NothingToConcatenate
    | OverlappingColumns(names: set<string>)

  /** The validation of an action against the number of input names. */
  function CheckAction(a: Action, inputCount: nat): (r: Result<seq<real>, EnvError>)
    ensures r.Success? <==> |AsValues(a)| == inputCount
    ensures r.Success? ==> r.value == AsValues(a)
    ensures r.Failure? ==> r.error == InvalidActionLength(inputCount, |AsValues(a)|)
  {
    var values := AsValues(a);
    if |values| != inputCount then Failure(InvalidActionLength(inputCount, |values|)) else Success(values)
  }

  /** A bare number behaves exactly as the one-element list holding it. */
  lemma ScalarActsAsSingleton(x: real, inputCount: nat)
    ensures CheckAction(Scalar(x), inputCount) == CheckAction(Values([x]), inputCount)
    ensures inputCount == 1 <==> CheckAction(Scalar(x), inputCount).Success?
  {
  }

  /** Two values for one declared input are refused, naming both lengths. */
  lemma TwoValuesForOneInput(x: real, y: real)
    ensures CheckAction(Values([x, y]), 1) == Failure(InvalidActionLength(1, 2))
  {
  }

  /** What the visualisation is told to plot: everything, a regular expression, shell-style globs, or a value of another type. */
  datatype VizSeries = AllSeries | Regex(pattern: string) | Globs(patterns: seq<string>) | OtherType

  /** The keyword arguments of the constructor that the model keeps. */
  datatype Arguments = Arguments(
    timeStep: real,
    timeStart: real,
    reward: Row -> real,
    maxEpisodeSteps: Option<int>,
    modelParams: seq<(string, Param)>,
    modelInput: Option<seq<string>>,
    modelOutput: Option<seq<ColumnGroup>>,
    vizMode: Option<string>,
    selectedVizSeries: VizSeries)

  /** The configuration an environment keeps after construction. */
  datatype Config = Config(
    timeStart: real,
    timeStep: real,
    timeEnd: Option<real>,
    reward: Row -> real,
    params: seq<(string, real -> real)>,
    inputNames: seq<string>,
    outputs: seq<ColumnGroup>,
    outputNames: seq<string>,
    vizMode: Option<string>,
    recordStates: bool,
    vizSeries: VizSeries)

  datatype ConfigError = MissingModelInput | MissingModelOutput | UnknownVizMode(mode: Option<string>) | UnsupportedVizSeries

  predicate KnownVizMode(mode: Option<string>)
  {
    mode == None || mode == Some("episode") || mode == Some("step")
  }

  /** The checks that precede writing the output names into the history. */
  predicate PassesEarlyChecks(args: Arguments)
  {
    args.modelInput.Some? && args.modelOutput.Some? && KnownVizMode(args.vizMode)
  }

  /** The construction checks, in the order the constructor makes them, and the derived configuration. */
  function MakeConfig(args: Arguments): (r: Result<Config, ConfigError>)
    ensures r.Success? <==> PassesEarlyChecks(args) && !args.selectedVizSeries.OtherType?
    ensures args.modelInput.None? ==> r.Failure? && r.error == MissingModelInput
    ensures args.modelInput.Some? && args.modelOutput.None? ==> r.Failure? && r.error == MissingModelOutput
    ensures args.modelInput.Some? && args.modelOutput.Some? && !KnownVizMode(args.vizMode) ==>
              r.Failure? && r.error == UnknownVizMode(args.vizMode)
    ensures PassesEarlyChecks(args) && args.selectedVizSeries.OtherType? ==> r.Failure? && r.error == UnsupportedVizSeries
    ensures r.Success? ==> r.value.timeStart == args.timeStart && r.value.timeStep == args.timeStep
    ensures r.Success? ==> (r.value.timeEnd.None? <==> args.maxEpisodeSteps.None?)
    ensures r.Success? ==> r.value.timeEnd == TimeEnd(args.timeStart, args.timeStep, args.maxEpisodeSteps)
    ensures r.Success? ==> r.value.inputNames == args.modelInput.value
    ensures r.Success? ==> r.value.outputs == args.modelOutput.value && r.value.outputNames == Flatten(args.modelOutput.value)
    ensures r.Success? ==> r.value.recordStates == (args.vizMode == Some("episode"))
    ensures r.Success? ==> |r.value.params| == |args.modelParams|
    ensures r.Success? ==> (forall i, t :: 0 <= i < |args.modelParams| ==>
              r.value.params[i].0 == args.modelParams[i].0 && r.value.params[i].1(t) == ValueAt(args.modelParams[i].1, t))
  {
    if args.modelInput.None? then Failure(MissingModelInput)
    else if args.modelOutput.None? then Failure(MissingModelOutput)
    else if !KnownVizMode(args.vizMode) then Failure(UnknownVizMode(args.vizMode))
    else if args.selectedVizSeries.OtherType? then Failure(UnsupportedVizSeries)
    else
      var timeEnd := TimeEnd(args.timeStart, args.timeStep, args.maxEpisodeSteps);
      Success(Config(
      args.timeStart,
      args.timeStep,
      timeEnd,
      args.reward,
      Lift(args.modelParams),
      args.modelInput.value,
      args.modelOutput.value,
      Flatten(args.modelOutput.value),
      args.vizMode,
      args.vizMode == Some("episode"),
      args.selectedVizSeries))
  }

  /** What step returns: the 3-tuple (last state, None, True) after termination, or (row, reward, done, {}). */
  datatype StepOutcome = Terminated(state: Row) | Stepped(obs: Row, reward: real, done: bool)
}

=== FILE: modelica.dfy ===
/**
 * The episode controller: an environment wrapping a simulation model. It
 * keeps the simulation time window, the last observed state and the pending
 * measurements, and drives the model and the history through reset, step and
 * update_measurements.
 */
module Modelica {
  import opened Wrappers
  import opened Columns
  import opened Rows
  import opened Params
  import opened Episode
  import Recorder
  import Adapter

  class Env {
    const cfg: Config
    const fmu: Adapter.Fmu
    const history: Recorder.History
    /** The simulation time window; None until the first reset. */
    var interval: Option<Window>
    /** The last observation of the model; None until the first reset. */
    var state: Option<Row>
    /** The measurements joined to every observation; None until reset or update_measurements. */
    var measurements: Option<Row>
    /** The number of times the window has moved since the last reset. */
    ghost var shifts: nat

    /**
     * Once reset, the window is the one reached from [time_start, time_start + time_step]
     * by `shifts` moves, so its length stays time_step, and the history holds the reset
     * row plus one row per move.
     */
    ghost predicate Valid()
      reads this, history
    {
      && fmu.Settles()
      && (interval.Some? ==>
            && interval.value == WindowAt(cfg.timeStart, cfg.timeStep, shifts)
            && state.Some? && measurements.Some?
            && |history.rows| == shifts + 1)
    }

    constructor (cfg: Config, fmu: Adapter.Fmu, history: Recorder.History)
      requires fmu.Settles()
      ensures this.cfg == cfg && this.fmu == fmu && this.history == history
      ensures interval == None && state == None && measurements == None
      ensures Valid()
    {
      this.cfg := cfg;
      this.fmu := fmu;
      this.history := history;
      interval := None;
      state := None;
      measurements := None;
      shifts := 0;
    }

    /**
     * The constructor: the argument checks, then the output names written into
     * the history, then the check of the series selection, which therefore
     * raises only after the history has been changed.
     */
    static method Create(args: Arguments, fmu: Adapter.Fmu, history: Recorder.History)
      returns (r: Result<Env, ConfigError>)
      requires fmu.Settles()
      modifies history
      ensures r.Success? <==> MakeConfig(args).Success?
      ensures r.Failure? ==> r.error == MakeConfig(args).error
      ensures r.Success? ==> fresh(r.value) && r.value.cfg == MakeConfig(args).value
      ensures r.Success? ==> r.value.fmu == fmu && r.value.history == history && r.value.interval == None
      ensures r.Success? ==> r.value.Valid()
      ensures history.rows == old(history.rows)
      ensures history.structured == if PassesEarlyChecks(args) then args.modelOutput.value else old(history.structured)
    {
      var c := MakeConfig(args);
      if !PassesEarlyChecks(args) {
        return Failure(c.error);
      }
      history.SetCols(args.modelOutput.value);
      if c.Failure? {
        return Failure(c.error);
      }
      var env := new Env(c.value, fmu, history);
      return Success(env);
    }

    /** The termination test on the current window. */
    predicate IsDone()
      reads this
      requires interval.Some?
      ensures cfg.timeEnd.None? ==> !IsDone()
      ensures cfg.timeEnd.Some? && cfg.timeEnd.value >= 0.0 ==>
                (IsDone() <==> interval.value.end > cfg.timeEnd.value || interval.value.end < -cfg.timeEnd.value)
    {
      Done(interval.value.end, cfg.timeEnd)
    }

    /** The row the model reports for the configured outputs in its current state. */
    ghost function Observation(): (obs: Row)
      reads this, fmu
      ensures obs.Keys == NameSet(cfg.outputNames)
    {
      RowOf(cfg.outputNames, fmu.Outputs(cfg.outputNames))
    }

    /**
     * Prepares the model: experiment set up at time_start, initialisation, then
     * event iteration until the event info reports no pending discrete state
     * (the first query's answer is overridden so at least one update happens),
     * then continuous-time mode.
     */
    method SetupFmu()
      requires fmu.Settles() && fmu.eventUpdates == 0
      modifies fmu`startTime, fmu`mode, fmu`eventUpdates
      ensures fmu.mode == Adapter.ContinuousTime && fmu.startTime == cfg.timeStart
      ensures fmu.SettledAfter(fmu.eventUpdates)
    {
      fmu.SetupExperiment(cfg.timeStart);
      fmu.EnterInitializationMode();
      fmu.ExitInitializationMode();
      var needed := fmu.GetEventInfo();
      needed := true;
      ghost var bound: nat :| 1 <= bound && !fmu.newDiscreteStatesNeeded(bound);
      while needed
        invariant fmu.eventUpdates <= bound
        invariant needed == (fmu.eventUpdates == 0 || fmu.newDiscreteStatesNeeded(fmu.eventUpdates))
        invariant forall j :: 1 <= j < fmu.eventUpdates ==> fmu.newDiscreteStatesNeeded(j)
        invariant fmu.startTime == cfg.timeStart
        decreases bound - fmu.eventUpdates
      {
        fmu.EnterEventMode();
        fmu.EventUpdate();
        needed := fmu.GetEventInfo();
      }
      fmu.EnterContinuousTimeMode();
    }

    /** One integration over the current window; returns the outputs as a row keyed by the output names. */
    method Simulate() returns (obs: Row)
      requires interval.Some?
      modifies fmu`states
      ensures fmu.states == fmu.integrate(old(fmu.states), fmu.inputs, interval.value.start, interval.value.end)
      ensures obs == Observation()
      ensures obs.Keys == NameSet(cfg.outputNames)
    {
      fmu.Advance(interval.value.start, interval.value.end);
      var values := fmu.GetReal(cfg.outputNames);
      assert values == fmu.Outputs(cfg.outputNames);
      obs := RowOf(cfg.outputNames, values);
    }

    /** The model part of reset: back to its initial state, an experiment set up at 0, then the set-up sequence. */
    method ResetModel()
      requires fmu.Settles()
      modifies fmu`states, fmu`inputs, fmu`startTime, fmu`mode, fmu`eventUpdates
      ensures fmu.states == fmu.initialStates && fmu.inputs == map[]
      ensures fmu.mode == Adapter.ContinuousTime && fmu.startTime == cfg.timeStart
      ensures fmu.SettledAfter(fmu.eventUpdates)
    {
      fmu.Reset();
      fmu.SetupExperiment(0.0);
      SetupFmu();
    }

    /**
     * Restarts the episode: the model is reset and set up, the window becomes
     * [time_start, time_start + time_step], the history is emptied, one
     * simulation gives the initial state, the measurements are cleared, and the
     * state joined with the (empty) measurements is the history's only row.
     */
    method Reset() returns (obs: Row)
      requires Valid()
      modifies this`interval, this`state, this`measurements, this`shifts
      modifies fmu`states, fmu`inputs, fmu`startTime, fmu`mode, fmu`eventUpdates, history`rows
      ensures Valid()
      ensures interval == Some(Window(cfg.timeStart, cfg.timeStart + cfg.timeStep)) && shifts == 0
      ensures fmu.inputs == map[] && fmu.mode == Adapter.ContinuousTime && fmu.startTime == cfg.timeStart
      ensures fmu.SettledAfter(fmu.eventUpdates)
      ensures fmu.states == fmu.integrate(fmu.initialStates, map[], cfg.timeStart, cfg.timeStart + cfg.timeStep)
      ensures obs == Observation() && obs.Keys == NameSet(cfg.outputNames)
      ensures state == Some(obs) && measurements == Some(map[])
      ensures history.rows == [obs]
    {
      ResetModel();
      interval := Some(Window(cfg.timeStart, cfg.timeStart + cfg.timeStep));
      shifts := 0;
      history.Reset();
      obs := Simulate();
      state := Some(obs);
      measurements := Some(map[]);
      JoinEmpty(obs);
      history.Append(Join(obs, map[]).value);
    }

    /** Sets the action on the input names, then, if there are parameters, each one evaluated at the window start. */
    method PushInputs(values: seq<real>)
      requires interval.Some? && |values| == |cfg.inputNames|
      modifies fmu`inputs
      ensures fmu.inputs == Assign(Assign(old(fmu.inputs), cfg.inputNames, values),
                                   Firsts(cfg.params), ValuesAt(cfg.params, interval.value.start))
    {
      fmu.Set(cfg.inputNames, values);
      if |cfg.params| > 0 {
        fmu.Set(Firsts(cfg.params), ValuesAt(cfg.params, interval.value.start));
      }
    }

    /**
     * One control step. After termination it returns the last state and
     * changes nothing. Otherwise a bare number is wrapped into a list, an
     * action of the wrong length raises before the model is touched, the
     * action and then the parameters evaluated at the window start are set on
     * the model, one simulation gives the new state, the state joined with the
     * measurements is appended to the history, and the window moves by one
     * time step unless the episode is over.
     */
    method Step(action: Action) returns (r: Result<StepOutcome, EnvError>)
      requires Valid() && interval.Some?
      modifies this`interval, this`state, this`shifts, fmu`inputs, fmu`states, history`rows
      ensures Valid() && interval.Some?
      ensures old(IsDone()) ==>
                r == Success(Terminated(old(state).value)) && unchanged(this, fmu, history)
      ensures !old(IsDone()) && |AsValues(action)| != |cfg.inputNames| ==>
                r == Failure(InvalidActionLength(|cfg.inputNames|, |AsValues(action)|)) && unchanged(this, fmu, history)
      ensures !old(IsDone()) && |AsValues(action)| == |cfg.inputNames| ==>
                && fmu.inputs == Assign(Assign(old(fmu.inputs), cfg.inputNames, AsValues(action)),
                                        Firsts(cfg.params), ValuesAt(cfg.params, old(interval).value.start))
                && fmu.states == fmu.integrate(old(fmu.states), fmu.inputs, old(interval).value.start, old(interval).value.end)
                && state == Some(Observation())
      ensures !old(IsDone()) && |AsValues(action)| == |cfg.inputNames| && Join(Observation(), measurements.value).None? ==>
                && r == Failure(OverlappingColumns(Observation().Keys * measurements.value.Keys))
                && interval == old(interval) && shifts == old(shifts) && history.rows == old(history.rows)
      ensures !old(IsDone()) && |AsValues(action)| == |cfg.inputNames| && Join(Observation(), measurements.value).Some? ==>
                var row := Join(Observation(), measurements.value).value;
                && history.rows == old(history.rows) + [row]
                && interval == Some(Shift(old(interval).value, cfg.timeStep)) && shifts == old(shifts) + 1
                && r == Success(Stepped(row, cfg.reward(row), IsDone()))
    {
      if IsDone() {
        return Success(Terminated(state.value));
      }
      var checked := CheckAction(action, |cfg.inputNames|);
      if checked.Failure? {
        return Failure(checked.error);
      }
      r := Proceed(checked.value);
    }

    /**
     * The part of a step after its checks: the values and then the parameters
     * are set, one simulation gives the new state, the state joined with the
     * measurements is appended to the history, and the window moves.
     */
    method Proceed(values: seq<real>) returns (r: Result<StepOutcome, EnvError>)
      requires Valid() && interval.Some? && !IsDone() && |values| == |cfg.inputNames|
      modifies this`interval, this`state, this`shifts, fmu`inputs, fmu`states, history`rows
      ensures Valid() && interval.Some?
      ensures fmu.inputs == Assign(Assign(old(fmu.inputs), cfg.inputNames, values),
                                   Firsts(cfg.params), ValuesAt(cfg.params, old(interval).value.start))
      ensures fmu.states == fmu.integrate(old(fmu.states), fmu.inputs, old(interval).value.start, old(interval).value.end)
      ensures state == Some(Observation())
      ensures Join(Observation(), measurements.value).None? ==>
                && r == Failure(OverlappingColumns(Observation().Keys * measurements.value.Keys))
                && interval == old(interval) && shifts == old(shifts) && history.rows == old(history.rows)
      ensures Join(Observation(), measurements.value).Some? ==>
                var row := Join(Observation(), measurements.value).value;
                && history.rows == old(history.rows) + [row]
                && interval == Some(Shift(old(interval).value, cfg.timeStep)) && shifts == old(shifts) + 1
                && r == Success(Stepped(row, cfg.reward(row), IsDone()))
    {
      PushInputs(values);
      var obs := Simulate();
      state := Some(obs);
      r := RecordObservation(obs);
    }

    /**
     * The end of a step: the observation joined with the measurements is
     * appended to the history and the window moves, unless the step just
     * taken was already past the end time.
     */
    method RecordObservation(obs: Row) returns (r: Result<StepOutcome, EnvError>)
      requires Valid() && interval.Some? && !IsDone()
      modifies this`interval, this`shifts, history`rows
      ensures Valid() && interval.Some?
      ensures Join(obs, measurements.value).None? ==>
                && r == Failure(OverlappingColumns(obs.Keys * measurements.value.Keys))
                && interval == old(interval) && shifts == old(shifts) && history.rows == old(history.rows)
      ensures Join(obs, measurements.value).Some? ==>
                var row := Join(obs, measurements.value).value;
                && history.rows == old(history.rows) + [row]
                && interval == Some(Shift(old(interval).value, cfg.timeStep)) && shifts == old(shifts) + 1
                && r == Success(Stepped(row, cfg.reward(row), IsDone()))
    {
      var joined := Join(obs, measurements.value);
      if joined.None? {
        return Failure(OverlappingColumns(obs.Keys * measurements.value.Keys));
      }
      history.Append(joined.value);
      if !IsDone() {
        interval := Some(Shift(interval.value, cfg.timeStep));
        shifts := shifts + 1;
      }
      r := Success(Stepped(joined.value, cfg.reward(joined.value), IsDone()));
    }

    /**
     * The loop of update_measurements over the column groups: each group is
     * tested against the columns as they stand, a new group is appended, and
     * the first conflicting group stops the loop, whose index is returned.
     */
    method RegisterGroups(groups: seq<seq<ColumnGroup>>) returns (failed: Option<nat>)
      modifies history`structured
      ensures history.structured == RegisterAll(old(history.structured), groups).structured
      ensures failed.None? <==> RegisterAll(old(history.structured), groups).ok
      ensures failed.Some? ==> failed.value < |groups|
      ensures failed.Some? ==> Classify(history.Cols(), groups[failed.value]) == Conflict
      ensures failed.Some? ==> RegisterAll(old(history.structured), groups[..failed.value]) == Registration(history.structured, true)
    {
      ghost var start := history.structured;
      var i := 0;
      while i < |groups|
        invariant 0 <= i <= |groups|
        invariant RegisterAll(history.structured, groups[i..]) == RegisterAll(start, groups)
        invariant RegisterAll(start, groups[..i]) == Registration(history.structured, true)
      {
        ghost var before := history.structured;
        var conflict := RegisterGroup(groups[i]);
        if conflict {
          RegisterAllStops(before, groups, i);
          return Some(i);
        }
        RegisterAllNext(before, history.structured, groups, i);
        RegisterAllPrefix(start, before, history.structured, groups, i);
        i := i + 1;
      }
      assert groups[i..] == [];
      return None;
    }

    /**
     * One iteration of that loop: a group whose names are all new is appended
     * to the columns, one whose names are all known changes nothing, and a
     * conflicting one is reported.
     */
    method RegisterGroup(cols: seq<ColumnGroup>) returns (conflict: bool)
      modifies history`structured
      ensures conflict <==> RegisterStep(old(history.structured), cols).None?
      ensures conflict ==> history.structured == old(history.structured) && Classify(history.Cols(), cols) == Conflict
      ensures !conflict ==> RegisterStep(old(history.structured), cols) == Some(history.structured)
    {
      var verdict := Classify(history.Cols(), cols);
      if verdict == NewColumns {
        history.SetCols(history.StructuredCols() + cols);
      }
      conflict := verdict == Conflict;
    }

    /**
     * Registers the column group of each (columns, frame) pair in order: a
     * group whose names are all new is appended to the history's columns, a
     * group whose names are all known changes nothing, and a partial overlap
     * raises, keeping the groups registered before it. When every group passes,
     * the frames side by side become the measurements joined to later
     * observations; an empty list has nothing to put side by side and raises.
     */
    method UpdateMeasurements(measured: seq<(seq<ColumnGroup>, Row)>) returns (r: Outcome<EnvError>)
      requires Valid()
      modifies this`measurements, history`structured
      ensures Valid()
      ensures history.structured == RegisterAll(old(history.structured), Firsts(measured)).structured
      ensures !RegisterAll(old(history.structured), Firsts(measured)).ok ==>
                && r.Fail? && r.error.SchemaConflict? && measurements == old(measurements)
                && r.error.known == history.Cols() && Classify(r.error.known, r.error.cols) == Conflict
                && exists k :: 0 <= k < |measured| && r.error.cols == measured[k].0
                     && RegisterAll(old(history.structured), Firsts(measured)[..k]) == Registration(history.structured, true)
      ensures RegisterAll(old(history.structured), Firsts(measured)).ok && measured == [] ==>
                r == Fail(NothingToConcatenate) && measurements == old(measurements)
      ensures RegisterAll(old(history.structured), Firsts(measured)).ok && measured != [] ==>
                r == Pass && measurements == Some(Concat(Seconds(measured)))
    {
      var failed := RegisterGroups(Firsts(measured));
      if failed.Some? {
        assert Firsts(measured)[failed.value] == measured[failed.value].0;
        return Fail(SchemaConflict(measured[failed.value].0, history.Cols()));
      }
      if measured == [] {
        return Fail(NothingToConcatenate);
      }
      measurements := Some(Concat(Seconds(measured)));
      r := Pass;
    }
  }

  /** A reset environment with a non-negative start, a positive step, at most five steps, no inputs and empty measurements. */
  ghost predicate FiveStepSetting(env: Env)
    reads env, env.history
  {
    && env.Valid() && env.interval.Some? && env.measurements == Some(map[])
    && env.cfg.timeStart >= 0.0 && env.cfg.timeStep > 0.0
    && env.cfg.timeEnd == TimeEnd(env.cfg.timeStart, env.cfg.timeStep, Some(5))
    && env.cfg.inputNames == []
  }

  /** Builds and resets an environment stepping by 0.1 from time 0 for at most five steps, with no inputs or parameters. */
  method StartFiveStepEpisode(fmu: Adapter.Fmu, history: Recorder.History, reward: Row -> real, outputs: seq<ColumnGroup>)
    returns (env: Env)
    requires fmu.Settles()
    modifies fmu, history
    ensures FiveStepSetting(env) && env.shifts == 0
    ensures env.fmu == fmu && env.history == history && fresh(env)
  {
    var args := Arguments(0.1, 0.0, reward, Some(5), [], Some([]), Some(outputs), Some("episode"), AllSeries);
    var created := Env.Create(args, fmu, history);
    env := created.value;
    var _ := env.Reset();
  }

  /** A step within the five: it reports done exactly when it is the fifth. */
  method StepWithoutInputs(env: Env) returns (done: bool)
    requires FiveStepSetting(env) && env.shifts < 5
    modifies env`interval, env`state, env`shifts, env.fmu`inputs, env.fmu`states, env.history`rows
    ensures FiveStepSetting(env)
    ensures env.shifts == old(env.shifts) + 1 && done == (env.shifts >= 5)
  {
    EpisodeLength(env.cfg.timeStart, env.cfg.timeStep, 5, env.shifts);
    assert !env.IsDone();
    var r := env.Step(Values([]));
    JoinEmpty(env.Observation());
    assert r.Success? && r.value.Stepped? && r.value.done == env.IsDone();
    EpisodeLength(env.cfg.timeStart, env.cfg.timeStep, 5, env.shifts);
    done := r.value.done;
  }

  /** A step after the fifth returns the last state. */
  method StepAfterEnd(env: Env) returns (last: Result<StepOutcome, EnvError>)
    requires FiveStepSetting(env) && env.shifts >= 5
    modifies env`interval, env`state, env`shifts, env.fmu`inputs, env.fmu`states, env.history`rows
    ensures last == Success(Terminated(old(env.state).value))
    ensures unchanged(env, env.fmu, env.history) && env.IsDone()
  {
    EpisodeLength(env.cfg.timeStart, env.cfg.timeStep, 5, env.shifts);
    assert env.IsDone();
    last := env.Step(Values([]));
  }

  /**
   * An episode of at most five steps of 0.1 from time 0, on a model without
   * inputs or parameters: after a reset the first four steps report not done,
   * the fifth reports done, and a sixth returns the last state, which the
   * environment still holds, with the reset row and five step rows recorded.
   */
  method FiveStepEpisode(fmu: Adapter.Fmu, history: Recorder.History, reward: Row -> real, outputs: seq<ColumnGroup>)
    returns (env: Env, flags: seq<bool>, last: Result<StepOutcome, EnvError>)
    requires fmu.Settles()
    modifies fmu, history
    ensures flags == [false, false, false, false, true]
    ensures env.Valid() && env.interval.Some? && env.IsDone() && env.shifts == 5 && |history.rows| == 6
    ensures last == Success(Terminated(env.state.value))
  {
    env := StartFiveStepEpisode(fmu, history, reward, outputs);
    flags := [];
    var i := 0;
    while i < 5
      invariant FiveStepSetting(env) && env.fmu == fmu && env.history == history
      invariant i <= 5 && env.shifts == i && flags == [false, false, false, false, true][..i]
    {
      var done := StepWithoutInputs(env);
      flags := flags + [done];
      i := i + 1;
    }
    last := StepAfterEnd(env);
  }
}

=== FILE: params.dfy ===
/**
 * Model parameters: each is a scalar or a function of time. At construction
 * scalars are meant to become constant functions of time; at every step each
 * parameter is evaluated at the start of the window.
 */
module Params {

  datatype Param = Const(value: real) | Varying(f: real -> real)

  /** What the parameter is meant to be worth at time t. */
  function ValueAt(p: Param, t: real): real
  {
    match p
    case Const(v) => v
    case Varying(f) => f(t)
  }

  /** Lifts every scalar to a constant function; a function of time is kept as it is. */
  function Lift(params: seq<(string, Param)>): (r: seq<(string, real -> real)>)
    ensures |r| == |params|
    ensures forall i :: 0 <= i < |params| ==> r[i].0 == params[i].0
    ensures forall i, t :: 0 <= i < |params| ==> r[i].1(t) == ValueAt(params[i].1, t)
  {
    seq(|params|, i requires 0 <= i < |params| =>
      (params[i].0, match params[i].1 case Const(v) => (t: real) => v case Varying(f) => f))
  }

  /** Every lifted scalar is the constant function of its own value. */
  lemma LiftedScalarIsConstant(params: seq<(string, Param)>, i: nat, t: real, u: real)
    requires i < |params| && params[i].1.Const?
    ensures Lift(params)[i].1(t) == Lift(params)[i].1(u) == params[i].1.value
  {
  }

  /**
   * The lifting as the comprehension at modelica.py:115 behaves: the lambda made
   * for a scalar reads the loop variable only when called, after the loop has
   * ended, so it yields the value of the last entry, whatever that entry is.
   */
  function LiftAsWritten(params: seq<(string, Param)>): (r: seq<(string, real -> Param)>)
    ensures |r| == |params|
    ensures forall i :: 0 <= i < |params| ==> r[i].0 == params[i].0
    ensures forall i, t :: 0 <= i < |params| && params[i].1.Const? ==> r[i].1(t) == params[|params| - 1].1
    ensures forall i, t :: 0 <= i < |params| && params[i].1.Varying? ==> r[i].1(t) == Const(ValueAt(params[i].1, t))
  {
    seq(|params|, i requires 0 <= i < |params| =>
      var last := params[|params| - 1].1;
      (params[i].0, match params[i].1 case Const(_) => (t: real) => last case Varying(f) => (t: real) => Const(f(t))))
  }

  /** With two scalar parameters, the first one's lifted function yields the second one's value. */
  lemma LateBindingCounterexample()
    ensures var params := [("a", Const(1.0)), ("b", Const(2.0))];
            LiftAsWritten(params)[0].1(0.0) == Const(2.0) &&
            Lift(params)[0].1(0.0) == 1.0
  {
  }

  /** Each parameter evaluated at time t, in order. */
  function ValuesAt(lifted: seq<(string, real -> real)>, t: real): (r: seq<real>)
    ensures |r| == |lifted| && forall i :: 0 <= i < |lifted| ==> r[i] == lifted[i].1(t)
  {
    seq(|lifted|, i requires 0 <= i < |lifted| => lifted[i].1(t))
  }
}

=== FILE: recorder.dfy ===
/**
 * The history recorder the environment writes to. Its implementation lives
 * outside the environment; this is the behaviour the environment relies on:
 * structured columns it can read and replace, a flat list of column names,
 * and a list of rows that reset clears and append extends.
 */
module Recorder {
  import opened Columns
  import opened Rows

  class History {
    var structured: seq<ColumnGroup>
    var rows: seq<Row>

    constructor ()
      ensures structured == [] && rows == []
    {
      structured := [];
      rows := [];
    }

    /** The flat list of column names (the `cols` property). */
    function Cols(): seq<string>
      reads this
    {
      Flatten(structured)
    }

    function StructuredCols(): seq<ColumnGroup>
      reads this
    {
      structured
    }

    /** Assigning to `cols`: the column groups are replaced; the rows are not touched. */
    method SetCols(cols: seq<ColumnGroup>)
      modifies this`structured
      ensures structured == cols
    {
      structured := cols;
    }

    /** Drops every row; the column groups are not touched. */
    method Reset()
      modifies this`rows
      ensures rows == []
    {
      rows := [];
    }

    /** Adds one row at the end. */
    method Append(row: Row)
      modifies this`rows
      ensures rows == old(rows) + [row]
    {
      rows := rows + [row];
    }
  }
}

=== FILE: rows.dfy ===
/**
 * Rows of the history and of the model's inputs: maps from a column or
 * variable name to its value. pandas frames of one row become such maps.
 */
module Rows {
  import opened Wrappers

  type Row = map<string, real>

  /**
   * Sets the named entries one after another, as repeated assignments do: a
   * later name overrides an earlier one. The keys gained are exactly the names.
   */
  function Assign(m: Row, names: seq<string>, values: seq<real>): (r: Row)
    requires |names| == |values|
    ensures r.Keys == m.Keys + (set n | n in names)
    decreases |names|
  {
    if names == [] then m
    else
      assert (set n | n in names) == {names[0]} + (set n | n in names[1..]);
      Assign(m[names[0] := values[0]], names[1..], values[1..])
  }

  /** A name takes the value of its last assignment. */
  lemma {:induction false} AssignLookup(m: Row, names: seq<string>, values: seq<real>, i: nat)
    requires |names| == |values| && i < |names|
    requires forall j :: i < j < |names| ==> names[j] != names[i]
    ensures names[i] in Assign(m, names, values)
    ensures Assign(m, names, values)[names[i]] == values[i]
    decreases |names|
  {
    var m' := m[names[0] := values[0]];
    if i == 0 {
      AssignUntouched(m', names[1..], values[1..], names[0]);
    } else {
      AssignLookup(m', names[1..], values[1..], i - 1);
    }
  }

  /** A name that is not assigned keeps its value. */
  lemma {:induction false} AssignUntouched(m: Row, names: seq<string>, values: seq<real>, k: string)
    requires |names| == |values|
    requires k in m && k !in names
    ensures k in Assign(m, names, values) && Assign(m, names, values)[k] == m[k]
    decreases |names|
  {
    if names != [] {
      assert k != names[0];
      AssignUntouched(m[names[0] := values[0]], names[1..], values[1..], k);
    }
  }

  /** The one-row frame with the given columns and values. */
  function RowOf(names: seq<string>, values: seq<real>): (r: Row)
    requires |names| == |values|
    ensures r.Keys == set n | n in names
  {
    Assign(map[], names, values)
  }

  /** Side-by-side concatenation of one-row frames; a later frame's column overrides an earlier one. */
  function Concat(rows: seq<Row>): (r: Row)
    ensures rows == [] ==> r == map[]
    ensures rows != [] ==> forall k :: k in rows[|rows| - 1] ==> k in r && r[k] == rows[|rows| - 1][k]
  {
    if rows == [] then map[] else Concat(rows[..|rows| - 1]) + rows[|rows| - 1]
  }

  /** A column of the concatenation comes from some frame, and every frame's columns are in it. */
  lemma {:induction false} ConcatKeys(rows: seq<Row>, k: string)
    ensures k in Concat(rows) <==> exists i :: 0 <= i < |rows| && k in rows[i]
    decreases |rows|
  {
    if rows != [] {
      var init := rows[..|rows| - 1];
      ConcatKeys(init, k);
      if k in rows[|rows| - 1] {
        assert k in Concat(rows);
      } else if exists i :: 0 <= i < |init| && k in init[i] {
        var i :| 0 <= i < |init| && k in init[i];
        assert rows[i] == init[i];
      } else {
        assert forall i :: 0 <= i < |rows| - 1 ==> rows[i] == init[i];
      }
    }
  }

  /** A column takes its value from the last frame that has it. */
  lemma {:induction false} ConcatLookup(rows: seq<Row>, i: nat, k: string)
    requires i < |rows| && k in rows[i]
    requires forall j :: i < j < |rows| ==> k !in rows[j]
    ensures k in Concat(rows) && Concat(rows)[k] == rows[i][k]
    decreases |rows|
  {
    var init := rows[..|rows| - 1];
    if i < |rows| - 1 {
      assert init[i] == rows[i];
      ConcatLookup(init, i, k);
    }
  }

  /** Joining two one-row frames: refused when they share a column, as pandas does without suffixes. */
  function Join(left: Row, right: Row): (r: Option<Row>)
    ensures r.Some? <==> left.Keys !! right.Keys
    ensures r.Some? ==> r.value.Keys == left.Keys + right.Keys
    ensures r.Some? ==> forall k :: k in left ==> r.value[k] == left[k]
    ensures r.Some? ==> forall k :: k in right ==> r.value[k] == right[k]
  {
    if left.Keys !! right.Keys then Some(left + right) else None
  }

  /** Joining with a frame that has no columns gives the row itself. */
  lemma JoinEmpty(row: Row)
    ensures Join(row, map[]) == Some(row)
  {
    assert row + map[] == row;
  }
}

=== FILE: wrappers.dfy ===
/** Failure-carrying result types used for the exceptions the environment raises. */
module Wrappers {

  datatype Option<+T> = None | Some(value: T)

  /** A value, or the error a Python call would have raised instead. */
  datatype Result<+R, +E> = Success(value: R) | Failure(error: E)

  /** The outcome of a call that returns nothing but may raise. */
  datatype Outcome<+E> = Pass | Fail(error: E)

  /** The first components of a sequence of pairs, in order. */
  function Firsts<A, B>(pairs: seq<(A, B)>): (r: seq<A>)
    ensures |r| == |pairs| && forall i :: 0 <= i < |pairs| ==> r[i] == pairs[i].0
  {
    seq(|pairs|, i requires 0 <= i < |pairs| => pairs[i].0)
  }

  /** The second components of a sequence of pairs, in order. */
  function Seconds<A, B>(pairs: seq<(A, B)>): (r: seq<B>)
    ensures |r| == |pairs| && forall i :: 0 <= i < |pairs| ==> r[i] == pairs[i].1
  {
    seq(|pairs|, i requires 0 <= i < |pairs| => pairs[i].1)
  }
}
